=== FILE: README.md ===
# Portfolio contact form and lazy image — a Dafny model

This project models the two pieces of sequential logic in a personal-portfolio web page:

- **The contact form** (`src/components/Contact.tsx`). It covers the three form fields and the
  per-field validation run on submit. The e-mail check is the regular expression
  `^[^\s@]+@[^\s@]+\.[^\s@]+$`. Here it is a character-level scanner, proved to accept exactly the
  strings the expression describes. The change, submit and reset-timer handlers are modelled as a
  step function over events `Change(field, value)`, `Submit(sendOk)` and `Timeout`. The module
  also proves facts over whole event sequences.
- **The lazily loaded image** (`src/components/LazyImage.tsx`). Its state is the prop `src`,
  `imageSrc`, `isLoaded`, whether the element is still observed, and whether it is mounted. The
  events are `Intersect(isIntersecting)`, `PreloadDone`, `SrcChange(newSrc)` and `Unmount`.
  The derived outputs are the rendered `src` and the blur class.

Files:
- `wrappers.dfy`: `Option`.
- `text.dfy`: JavaScript's whitespace class as `IsSpace`, `trim()` and UTF-16 `length`.
- `email_pattern.dfy`: the e-mail expression, its scanner and the proofs that they agree.
- `contact_form.dfy`: the form state machine.
- `lazy_image.dfy`: the image state machine.

Behaviour modelled as the code is written:
- `validateForm` applies the e-mail expression to the untrimmed address. Given a non-blank string
  with leading or trailing whitespace, it therefore reports "Please enter a valid email". (The
  browser strips leading and trailing ASCII whitespace from an e-mail input before the handler
  sees the value; see "Left out".)
- The message length check counts the untrimmed text in UTF-16 code units. Nine spaces followed
  by one letter pass, and so do nine characters when one of them lies outside the Basic
  Multilingual Plane.
- An error is cleared when its field is edited. Validation replaces the whole error object on
  every submit.
- The image preload starts on mount whatever the visibility. So `isLoaded` can be true while the
  placeholder is still shown, and the blur ends at preload completion, not when the URL is shown.
- The element is never passed to the observer's `observe`, so in the page as written no
  intersection entry arrives and only the placeholder is rendered (`NoEntryMeansPlaceholder`).
  `Intersect` is kept as an event so that the callback's logic is still checked. The model's
  `observing` flag says whether the observer would still deliver an entry.
- The `onload` handler is not cancelled on unmount; only the observer is disconnected. A
  `PreloadDone` after `Unmount` still sets `isLoaded` in the model. React discards that update on
  an unmounted component, so nothing further is rendered.
- A new `src` prop reruns the effect: a new observer and a new preload. `imageSrc` and
  `isLoaded` are not reset, so a previously loaded image stays un-blurred.
- The component's evident intent is to defer the fetch until the image is visible. The code
  does not do this, and the model follows the code.

## Model

| member | source | states |
|---|---|---|
| `Text.Trim` | src/components/Contact.tsx:25 | `trim()` yields the empty (falsy) string exactly when the input is empty or all whitespace; otherwise the result starts and ends with non-whitespace |
| `Text.Utf16Length` | src/components/Contact.tsx:37 | `length` counts UTF-16 code units: one character counts one unit inside the Basic Multilingual Plane and two outside it; the total lies between one and two per character and equals the character count exactly when no character lies outside that plane |
| `Text.Utf16LengthConcat` | src/components/Contact.tsx:37 | the length of a concatenation is the sum of the lengths, so with the one-character case the length of every string is fixed |
| `EmailPattern.EmailShapeOkIffRegex` | src/components/Contact.tsx:31 | the character-level scan of the untrimmed string accepts a string exactly when it splits as non-empty `[^\s@]` run, '@', non-empty run, '.', non-empty run (the expression's language) |
| `EmailPattern.EmailShapeCharacterization` | src/components/Contact.tsx:31 | the e-mail test accepts exactly the strings with no whitespace, exactly one '@' with something before it, and a '.' after the '@' with a character on each side |
| `EmailPattern.ScanIsClassify` | src/components/Contact.tsx:31 | the left-to-right scanner state after any input equals a direct description of that input (dead, local part, or domain class) |
| `ContactForm.NameError` | src/components/Contact.tsx:25-27 | "Name is required" exactly when the name is empty or all whitespace, and no name error otherwise |
| `ContactForm.EmailError` | src/components/Contact.tsx:29-33 | "Email is required" exactly for a blank address; otherwise "Please enter a valid email" exactly when the untrimmed address is outside the expression's language; no error exactly when it is inside |
| `ContactForm.MessageError` | src/components/Contact.tsx:35-39 | "Message is required" exactly for a blank message; otherwise "Message must be at least 10 characters" exactly when the untrimmed UTF-16 length is below 10; at most one error, with "required" taking precedence |
| `ContactForm.ErrorCount` | src/components/Contact.tsx:42 | the error object has at most three keys and none exactly when every field is error-free |
| `ContactForm.ValidateForm` | src/components/Contact.tsx:22-43 | validation succeeds exactly when the name and message are not blank, the address matches the expression and the message is long enough, and exactly when the fresh error object is empty; the name, e-mail and message entries are exactly those fields' own checks, so each error lands under its own field; every error it reports is a non-empty message |
| `ContactForm.HandleChange` | src/components/Contact.tsx:45-57 | the edited field takes the new value and the other two keep theirs; that field shows no error afterwards; if it showed none the errors are unchanged; other errors, banner and timers are untouched |
| `ContactForm.HandleSubmit` | src/components/Contact.tsx:60-90 | errors become the fresh validation result; something is sent exactly when the form is valid, with name, e-mail and message verbatim and `reply_to` equal to the e-mail; an invalid form or failed send leaves the fields and banner alone; a successful send shows the banner, empties all fields and starts one reset timer |
| `ContactForm.HandleTimeout` | src/components/Contact.tsx:84-86 | a pending reset timer firing hides the banner; with none pending nothing changes; fields and errors are never touched |
| `ContactForm.Step` | src/components/Contact.tsx:45-90 | an event sends a payload exactly when it is a submit of a valid form; a change is handled by the change handler, a submit by the submit handler and a timer firing by the reset, so each event carries its handler's guarantees |
| `ContactForm.RunKeepsBannerReset` | src/components/Contact.tsx:81-86 | over any event sequence, whenever the success banner is shown a reset timer is pending to hide it |
| `ContactForm.InitialRunBannerResets` | src/components/Contact.tsx:14-20 | starting from the mounted component (empty fields, no errors, no banner), every reachable state that shows the banner has a reset timer pending |
| `ContactForm.FillFromInitial` | src/components/Contact.tsx:14-57 | typing the name, e-mail and message into the mounted form fills the three fields and changes nothing else |
| `ContactForm.FillSubmitReset` | src/components/Contact.tsx:14-90 | from the mounted form, filling in a valid form, submitting with a successful delivery and letting the timer fire sends exactly that form once, replying to its e-mail, and returns to the initial state |
| `ContactForm.RunSendsOnlyValidForms` | src/components/Contact.tsx:63-77 | over any event sequence, every payload sent holds a valid form, is addressed to the configured recipient and replies to its own e-mail |
| `ContactForm.SuccessClearsFormThenResets` | src/components/Contact.tsx:81-86 | after a successful send the banner shows and the fields are empty; a following timer hides the banner; an immediate second submit sends nothing and reports all three fields as required |
| `ContactForm.PaddedEmailIsInvalid` | src/components/Contact.tsx:29-32 | a non-blank address with whitespace at either end is reported invalid rather than trimmed |
| `ContactForm.PaddedEmailExample` | src/components/Contact.tsx:29-32 | `" a@b.co"` is reported as an invalid e-mail |
| `ContactForm.PlainEmailExample` | src/components/Contact.tsx:29-32 | `"a@b.co"` passes the e-mail check |
| `ContactForm.PaddedMessageIsLongEnough` | src/components/Contact.tsx:35-39 | nine spaces and one letter pass the length check |
| `ContactForm.AstralMessageExample` | src/components/Contact.tsx:35-39 | a nine-character message with one character outside the Basic Multilingual Plane has length ten and passes |
| `LazyImage.Step` | src/components/LazyImage.tsx:14-32 | only a preload completion sets `isLoaded`, which is never cleared; a preload completion changes nothing else; an intersecting entry while observed sets `imageSrc` to the prop and ends the observation and changes nothing else, and nothing else changes `imageSrc`; entries while unobserved and non-intersecting entries change nothing; a different prop while mounted is adopted and re-arms the observer, keeping `imageSrc` and `isLoaded`, and the same prop or an unmounted component changes nothing; unmounting stops the observation and changes nothing else; after unmounting `imageSrc` is frozen; the state invariant is kept |
| `LazyImage.QuietThenHit` | src/components/LazyImage.tsx:16-26 | while observed, preload completions and non-intersecting entries keep the observation alive, and the next intersecting entry takes over the current prop and ends the observation |
| `LazyImage.HitThenNewProp` | src/components/LazyImage.tsx:14-32 | from mounting, a hit takes over the prop, and after a new prop a second hit takes over the new one |
| `LazyImage.SrcChangeRearms` | src/components/LazyImage.tsx:14-32 | after a new prop, the next intersecting entry takes over the new prop, even if an earlier URL was already taken over and whatever preload completions and non-intersecting entries arrive in between |
| `LazyImage.RenderedSrc` | src/components/LazyImage.tsx:36 | the rendered `src` is never empty: it is the taken-over URL when that is a non-empty string, and otherwise the placeholder |
| `LazyImage.BlurClass` | src/components/LazyImage.tsx:38 | the blur class is `blur-sm` exactly when the image is not loaded, and `blur-0` once it is |
| `LazyImage.ClassName` | src/components/LazyImage.tsx:38 | the class list is the caller's classes followed by the blur class as a separate space-delimited class |
| `LazyImage.RunKeepsWf` | src/components/LazyImage.tsx:14-31 | in every reachable state an unmounted image is unobserved and a mounted one without a URL is still observed |
| `LazyImage.LoadedIffPreloadDone` | src/components/LazyImage.tsx:25-27 | after any events, the image is loaded exactly when it was loaded before or a preload completed |
| `LazyImage.BlurredUntilPreloaded` | src/components/LazyImage.tsx:25-38 | from mounting on, the image is blurred exactly until a preload completes, independent of visibility and of unmounting |
| `LazyImage.TakesUrlIffHit` | src/components/LazyImage.tsx:16-19 | a URL is held at the end exactly when one was held before or, while mounted, an intersecting entry arrived before any unmount |
| `LazyImage.UrlIsProp` | src/components/LazyImage.tsx:16-18 | while the prop stays fixed, the only URL ever taken over is the prop |
| `LazyImage.ShowsUrlIffHit` | src/components/LazyImage.tsx:16-36 | from mounting on, anything but the placeholder is shown only after an intersecting entry before unmount; with a fixed non-empty prop, the prop is shown exactly then |
| `LazyImage.NoEntryMeansPlaceholder` | src/components/LazyImage.tsx:14-23 | with no intersection entries, as in the page as written, only the placeholder is ever rendered |
| `LazyImage.LoadedBeforeVisible` | src/components/LazyImage.tsx:25-27 | a preload completing first yields a loaded, un-blurred image that still shows the placeholder |
| `LazyImage.UnobservedIgnoresEntries` | src/components/LazyImage.tsx:17-19 | once unobserved, any number of further entries change nothing |
| `LazyImage.UnmountedKeepsUrl` | src/components/LazyImage.tsx:26-31 | after unmounting the URL never changes and the image stays unmounted, but a preload completion still sets the loaded flag |

## Left out

- The delivery service call `emailjs.send` and the `import.meta.env` identifiers are external I/O. The send is modelled as a boolean outcome of `Submit`. The recipient address is a parameter.
- `ContactForm.HandleSubmit`: it runs atomically. Events that arrive while the send is awaited are not interleaved with it. The logged error of a failed send is not modelled.
- `ContactForm.HandleTimeout`: the 3000 ms delay has no real-time semantics. A timer firing is an abstract event.
- `Text.IsSpace`: it covers the ECMAScript WhiteSpace and LineTerminator code points. Strings are sequences of Unicode scalar values. The expression runs on UTF-16 code units, but a surrogate pair is two characters outside `\s` and '@' there, so acceptance is the same.
- The browser's handling of the e-mail input is not modelled. It is `type="email"` (src/components/Contact.tsx:245) and the form has no `noValidate` (src/components/Contact.tsx:195-196). So the browser strips leading and trailing ASCII whitespace (tab, line feed, form feed, carriage return, space) and any line breaks from the value and blocks submission of a non-empty invalid address. `Change(Email, v)` and `Submit` therefore cover more inputs than the page delivers to the handlers.
- `LazyImage.Step`: the observer's 0.1 threshold and the browser's intersection geometry are reduced to the entry's `isIntersecting` flag. Only the first entry of a callback is read, as in the source.
- React's batching of state updates and the re-render after each update are not modelled. Each handler's updates apply at once.
- Framer-motion variants, stagger delays, durations and `whileInView` are left out. They are declarative animation configuration in fractional seconds for a library that is not part of this model.
- Scrolling helpers, the scroll-to-top button, the navigation and theme toggles and `useTheme` are left out. They are browser plumbing or trivial UI state. `ScrollReveal` and the theme context are not part of this model.
- The static content arrays, markup and styling in the other sections are left out, as is the Tailwind configuration.

=== FILE: contact_form.dfy ===
/** The contact form: three text fields, the per-field validation run on submit, and the
    change, submit and reset handlers as a step function over events. */
module ContactForm {
  import opened Wrappers
  import opened Text
  import opened EmailPattern

  /** The values of the three inputs. */
  datatype FormData = FormData(name: string, email: string, message: string)

  const EmptyForm := FormData("", "", "")

  /** The `name` attribute of the input that raised a change event. */
  datatype Field = Name | Email | Message

  function Get(f: FormData, field: Field): string {
    match field
    case Name => f.name
    case Email => f.email
    case Message => f.message
  }

  /** The error shown under each input; `None` stands for a missing or `undefined` entry. */
  datatype FormErrors = FormErrors(name: Option<string>, email: Option<string>, message: Option<string>)

  const NoErrors := FormErrors(None, None, None)

  function ErrorOf(e: FormErrors, field: Field): Option<string> {
    match field
    case Name => e.name
    case Email => e.email
    case Message => e.message
  }

  /** JavaScript truthiness of an optional string: present and not empty. */
  predicate Truthy(o: Option<string>) {
    o.Some? && o.value != []
  }

  /** An error entry that is absent, or present and shown (a non-empty message). */
  predicate IsDisplayed(o: Option<string>) {
    o.Some? ==> Truthy(o)
  }

  const NameRequired: string := "Name is required"
  const EmailRequired: string := "Email is required"
  const EmailInvalid: string := "Please enter a valid email"
  const MessageRequired: string := "Message is required"
  const MessageTooShort: string := "Message must be at least 10 characters"

  /** The shortest message accepted, in UTF-16 code units of the untrimmed text. */
  const MinMessageLength: nat := 10

  /** The name is required: an empty or all-whitespace name is the only error. */
  function NameError(name: string): (r: Option<string>)
    ensures r == Some(NameRequired) <==> IsBlank(name)
    ensures r.None? <==> !IsBlank(name)
  {
    if Trim(name) == [] then Some(NameRequired) else None
  }

  /** The e-mail is required, and otherwise must match the shape expression as typed,
      so surrounding whitespace makes a non-blank address invalid. */
  function EmailError(email: string): (r: Option<string>)
    ensures r == Some(EmailRequired) <==> IsBlank(email)
    ensures r == Some(EmailInvalid) <==> !IsBlank(email) && !MatchesEmailRegex(email)
    ensures r.None? <==> MatchesEmailRegex(email)
  {
    RegexHasNoSpace(email);
    EmailShapeOkIffRegex(email);
    if Trim(email) == [] then Some(EmailRequired)
    else if !EmailShapeOk(email) then Some(EmailInvalid)
    else None
  }

  /** The message is required, and otherwise its untrimmed length must reach the minimum,
      so surrounding whitespace counts towards it. */
  function MessageError(message: string): (r: Option<string>)
    ensures r == Some(MessageRequired) <==> IsBlank(message)
    ensures r == Some(MessageTooShort) <==> !IsBlank(message) && Utf16Length(message) < MinMessageLength
    ensures r.None? <==> !IsBlank(message) && Utf16Length(message) >= MinMessageLength
  {
    if Trim(message) == [] then Some(MessageRequired)
    else if Utf16Length(message) < MinMessageLength then Some(MessageTooShort)
    else None
  }

  /** What a form must satisfy to be sent. */
  ghost predicate FormIsValid(f: FormData) {
    && !IsBlank(f.name)
    && MatchesEmailRegex(f.email)
    && !IsBlank(f.message) && Utf16Length(f.message) >= MinMessageLength
  }

  /** The number of keys of the error object. */
  function ErrorCount(e: FormErrors): (n: nat)
    ensures n <= 3
    ensures n == 0 <==> e == NoErrors
  {
    (if e.name.Some? then 1 else 0) + (if e.email.Some? then 1 else 0) + (if e.message.Some? then 1 else 0)
  }

  /** The result of validation: a freshly built error object and whether it has no keys. */
  datatype Validation = Validation(errors: FormErrors, ok: bool)

  /** Validation builds a new error object from the form alone (earlier errors play no part)
      and succeeds exactly when the form is valid. Every error it reports is displayed. */
  function ValidateForm(f: FormData): (r: Validation)
    ensures r.ok <==> FormIsValid(f)
    ensures r.ok <==> r.errors == NoErrors
    ensures IsDisplayed(r.errors.name) && IsDisplayed(r.errors.email) && IsDisplayed(r.errors.message)
    ensures r.errors == FormErrors(NameError(f.name), EmailError(f.email), MessageError(f.message))
  {
    var name, email, message := NameError(f.name), EmailError(f.email), MessageError(f.message);
    var errors := FormErrors(name, email, message);
    Validation(errors, ErrorCount(errors) == 0)
  }

  /** The component's state: form values, shown errors, the success banner, and the number of
      reset timers started after a successful send that have not fired yet. */
  datatype ContactState = ContactState(form: FormData, errors: FormErrors, isSubmitted: bool, pendingResets: nat)

  const Initial := ContactState(EmptyForm, NoErrors, false, 0)

  /** The template parameters handed to the message-delivery service. */
  datatype Payload = Payload(name: string, email: string, message: string, toEmail: string, replyTo: string)

  /** The state after a handler, and the payload it tried to send, if any. */
  datatype Transition = Transition(state: ContactState, sent: Option<Payload>)

  /** Typing into one input: that field takes the new value and the other two keep theirs.
      A displayed error on that field is cleared; an absent one leaves the errors as they are.
      Other errors, the banner and the timers are untouched. */
  function HandleChange(s: ContactState, field: Field, value: string): (r: ContactState)
    ensures Get(r.form, field) == value
    ensures forall g :: g != field ==> Get(r.form, g) == Get(s.form, g)
    ensures !Truthy(ErrorOf(r.errors, field))
    ensures forall g :: g != field ==> ErrorOf(r.errors, g) == ErrorOf(s.errors, g)
    ensures !Truthy(ErrorOf(s.errors, field)) ==> r.errors == s.errors
    ensures r.isSubmitted == s.isSubmitted && r.pendingResets == s.pendingResets
  {
    var form := match field
      case Name => s.form.(name := value)
      case Email => s.form.(email := value)
      case Message => s.form.(message := value);
    var errors :=
      if !Truthy(ErrorOf(s.errors, field)) then s.errors
      else match field
        case Name => s.errors.(name := None)
        case Email => s.errors.(email := None)
        case Message => s.errors.(message := None);
    s.(form := form, errors := errors)
  }

  /** Submitting: validation replaces the errors; an invalid form stops there. A valid form is
      sent verbatim, with the reply address equal to the e-mail. A failed send changes nothing
      more; a successful one shows the banner, clears all three fields and starts a reset timer. */
  function HandleSubmit(s: ContactState, sendOk: bool, contactTo: string): (t: Transition)
    ensures t.state.errors == ValidateForm(s.form).errors
    ensures t.sent.Some? <==> FormIsValid(s.form)
    ensures t.sent.Some? ==> t.sent.value == Payload(s.form.name, s.form.email, s.form.message, contactTo, s.form.email)
    ensures !(FormIsValid(s.form) && sendOk) ==>
      t.state.form == s.form && t.state.isSubmitted == s.isSubmitted && t.state.pendingResets == s.pendingResets
    ensures FormIsValid(s.form) && sendOk ==>
      t.state.form == EmptyForm && t.state.isSubmitted && t.state.pendingResets == s.pendingResets + 1
  {
    var v := ValidateForm(s.form);
    var s1 := s.(errors := v.errors);
    if !v.ok then Transition(s1, None)
    else
      var payload := Payload(s.form.name, s.form.email, s.form.message, contactTo, s.form.email);
      if sendOk then
        Transition(s1.(isSubmitted := true, form := EmptyForm, pendingResets := s.pendingResets + 1), Some(payload))
      else
        Transition(s1, Some(payload))
  }

  /** One pending reset timer fires and hides the banner; with none pending nothing happens. */
  function HandleTimeout(s: ContactState): (r: ContactState)
    ensures s.pendingResets > 0 ==> !r.isSubmitted && r.pendingResets == s.pendingResets - 1
    ensures s.pendingResets == 0 ==> r == s
    ensures r.form == s.form && r.errors == s.errors
  {
    if s.pendingResets == 0 then s else s.(isSubmitted := false, pendingResets := s.pendingResets - 1)
  }

  /** The events the component reacts to; `Timeout` is the firing of a reset timer. */
  datatype ContactEvent = Change(field: Field, value: string) | Submit(sendOk: bool) | Timeout

  /** One event, dispatched to its handler. Only a submit of a valid form sends anything. */
  function Step(s: ContactState, ev: ContactEvent, contactTo: string): (t: Transition)
    ensures t.sent.Some? <==> ev.Submit? && FormIsValid(s.form)
    ensures ev.Change? ==> t == Transition(HandleChange(s, ev.field, ev.value), None)
    ensures ev.Submit? ==> t == HandleSubmit(s, ev.sendOk, contactTo)
    ensures ev.Timeout? ==> t == Transition(HandleTimeout(s), None)
  {
    match ev
    case Change(field, value) => Transition(HandleChange(s, field, value), None)
    case Submit(sendOk) => HandleSubmit(s, sendOk, contactTo)
    case Timeout => Transition(HandleTimeout(s), None)
  }

  /** The state after a sequence of events and the payloads sent along the way, in order. */
  datatype RunResult = RunResult(state: ContactState, sent: seq<Payload>)

  function Run(s: ContactState, evs: seq<ContactEvent>, contactTo: string): RunResult
    decreases |evs|
  {
    if evs == [] then RunResult(s, [])
    else
      var t := Step(s, evs[0], contactTo);
      var rest := Run(t.state, evs[1..], contactTo);
      RunResult(rest.state, (if t.sent.Some? then [t.sent.value] else []) + rest.sent)
  }

  /** Running one event and then the rest: the event's payload, if any, comes first. */
  lemma RunCons(s: ContactState, ev: ContactEvent, rest: seq<ContactEvent>, contactTo: string)
    ensures Run(s, [ev] + rest, contactTo).state == Run(Step(s, ev, contactTo).state, rest, contactTo).state
    ensures Run(s, [ev] + rest, contactTo).sent ==
      (if Step(s, ev, contactTo).sent.Some? then [Step(s, ev, contactTo).sent.value] else [])
      + Run(Step(s, ev, contactTo).state, rest, contactTo).sent
  {
    assert ([ev] + rest)[0] == ev;
    assert ([ev] + rest)[1..] == rest;
  }

  /** Typing the three fields into the mounted form fills it and leaves everything else as
      it was. */
  lemma FillFromInitial(n: string, e: string, m: string, rest: seq<ContactEvent>, contactTo: string)
    ensures Run(Initial, [Change(Name, n), Change(Email, e), Change(Message, m)] + rest, contactTo) ==
      Run(Initial.(form := FormData(n, e, m)), rest, contactTo)
  {
    var s1 := HandleChange(Initial, Name, n);
    var s2 := HandleChange(s1, Email, e);
    var s3 := HandleChange(s2, Message, m);
    assert Get(s3.form, Name) == n && Get(s3.form, Email) == e && Get(s3.form, Message) == m;
    assert s3 == Initial.(form := FormData(n, e, m));
    var evs := [Change(Name, n), Change(Email, e), Change(Message, m)] + rest;
    assert evs == [Change(Name, n)] + ([Change(Email, e)] + ([Change(Message, m)] + rest));
    RunCons(Initial, Change(Name, n), [Change(Email, e)] + ([Change(Message, m)] + rest), contactTo);
    RunCons(s1, Change(Email, e), [Change(Message, m)] + rest, contactTo);
    RunCons(s2, Change(Message, m), rest, contactTo);
  }

  /** From the mounted form: filling in a valid form and submitting with a successful delivery
      sends exactly that form once, replying to its e-mail; the fields are then empty, and the
      reset timer firing hides the banner again. */
  lemma FillSubmitReset(n: string, e: string, m: string, contactTo: string)
    requires FormIsValid(FormData(n, e, m))
    ensures Run(Initial, [Change(Name, n), Change(Email, e), Change(Message, m), Submit(true), Timeout], contactTo)
      == RunResult(Initial, [Payload(n, e, m, contactTo, e)])
  {
    var filled := Initial.(form := FormData(n, e, m));
    FillFromInitial(n, e, m, [Submit(true), Timeout], contactTo);
    assert [Change(Name, n), Change(Email, e), Change(Message, m), Submit(true), Timeout]
      == [Change(Name, n), Change(Email, e), Change(Message, m)] + [Submit(true), Timeout];
    var t := HandleSubmit(filled, true, contactTo);
    assert t.state == ContactState(EmptyForm, NoErrors, true, 1);
    RunCons(filled, Submit(true), [Timeout], contactTo);
    RunCons(t.state, Timeout, [], contactTo);
  }

  /** From the initial state, the banner is never shown without a pending reset timer. */
  lemma InitialRunBannerResets(evs: seq<ContactEvent>, contactTo: string)
    ensures BannerWillReset(Run(Initial, evs, contactTo).state)
  {
    RunKeepsBannerReset(Initial, evs, contactTo);
  }

  /** The banner is only ever shown while a reset timer is pending to hide it. */
  ghost predicate BannerWillReset(s: ContactState) {
    s.isSubmitted ==> s.pendingResets > 0
  }

  lemma {:induction false} RunKeepsBannerReset(s: ContactState, evs: seq<ContactEvent>, contactTo: string)
    requires BannerWillReset(s)
    ensures BannerWillReset(Run(s, evs, contactTo).state)
    decreases |evs|
  {
    if evs != [] {
      RunKeepsBannerReset(Step(s, evs[0], contactTo).state, evs[1..], contactTo);
    }
  }

  /** A payload that holds a valid form, addressed to `contactTo`, replying to its e-mail. */
  ghost predicate SendsValidForm(p: Payload, contactTo: string) {
    && FormIsValid(FormData(p.name, p.email, p.message))
    && p.toEmail == contactTo
    && p.replyTo == p.email
  }

  /** Nothing invalid is ever handed to the delivery service, whatever the events. */
  lemma {:induction false} RunSendsOnlyValidForms(s: ContactState, evs: seq<ContactEvent>, contactTo: string)
    ensures forall p :: p in Run(s, evs, contactTo).sent ==> SendsValidForm(p, contactTo)
    decreases |evs|
  {
    if evs != [] {
      var t := Step(s, evs[0], contactTo);
      RunSendsOnlyValidForms(t.state, evs[1..], contactTo);
    }
  }

  /** After a successful send the fields are empty, so the banner shows and an immediate
      second submit reports all three fields as required and sends nothing; a later timer
      firing hides the banner. */
  lemma SuccessClearsFormThenResets(s: ContactState, contactTo: string, again: bool)
    requires FormIsValid(s.form)
    ensures HandleSubmit(s, true, contactTo).state.isSubmitted
    ensures HandleSubmit(s, true, contactTo).state.form == EmptyForm
    ensures !HandleTimeout(HandleSubmit(s, true, contactTo).state).isSubmitted
    ensures HandleSubmit(HandleSubmit(s, true, contactTo).state, again, contactTo).sent.None?
    ensures HandleSubmit(HandleSubmit(s, true, contactTo).state, again, contactTo).state.errors
      == FormErrors(Some(NameRequired), Some(EmailRequired), Some(MessageRequired))
  {
  }

  /** A non-blank e-mail with whitespace at either end is reported invalid, not trimmed. */
  lemma PaddedEmailIsInvalid(email: string)
    requires !IsBlank(email)
    requires IsSpace(email[0]) || IsSpace(email[|email| - 1])
    ensures EmailError(email) == Some(EmailInvalid)
  {
  }

  /** Surrounding whitespace counts towards the message length: nine spaces and one letter pass. */
  lemma PaddedMessageIsLongEnough()
    ensures MessageError("         x") == None
  {
  }

  /** The address is checked as typed: with a leading space it is invalid... */
  lemma PaddedEmailExample()
    ensures EmailError(" a@b.co") == Some(EmailInvalid)
  {
    assert !IsSpace(" a@b.co"[1]);
    assert IsSpace(" a@b.co"[0]);
    PaddedEmailIsInvalid(" a@b.co");
  }

  /** ...and without it the same address is valid. */
  lemma PlainEmailExample()
    ensures EmailError("a@b.co") == None
  {
    var e := "a@b.co";
    assert e[2..][1] == '.';
    assert WellShapedEmail(e) by {
      assert e[1] == '@' && HasInnerDot(e[2..]);
    }
    EmailShapeCharacterization(e);
  }

  /** The length counts UTF-16 code units: nine characters, one of them outside the Basic
      Multilingual Plane, make ten units and pass the minimum. */
  lemma AstralMessageExample()
    ensures |"\U{1F600}abcdefgh"| == 9
    ensures MessageError("\U{1F600}abcdefgh") == None
  {
    var m := "\U{1F600}abcdefgh";
    assert m == "\U{1F600}" + "abcdefgh";
    Utf16LengthConcat("\U{1F600}", "abcdefgh");
    assert !IsSpace(m[1]);
  }
}

=== FILE: email_pattern.dfy ===
/** The e-mail shape test of the contact form, the regular expression
    `^[^\s@]+@[^\s@]+\.[^\s@]+$`, written as a character-level scanner and proved to accept
    exactly the strings the expression describes. */
module EmailPattern {
  import opened Text

  /** A character the class `[^\s@]` accepts. */
  predicate IsAtomChar(c: char) {
    !IsSpace(c) && c != '@'
  }

  /** Every character is accepted by `[^\s@]`. */
  predicate AllAtomChars(t: string) {
    forall i :: 0 <= i < |t| ==> IsAtomChar(t[i])
  }

  /** No whitespace anywhere. */
  predicate NoSpace(t: string) {
    forall i :: 0 <= i < |t| ==> !IsSpace(t[i])
  }

  /** The string splits at an '@' (index `at`) and a later '.' (index `dot`) into three
      non-empty runs of `[^\s@]` characters. */
  ghost predicate SplitsAt(s: string, at: int, dot: int) {
    && 0 < at && at + 1 < dot && dot + 1 < |s|
    && s[at] == '@' && s[dot] == '.'
    && AllAtomChars(s[..at]) && AllAtomChars(s[at + 1..dot]) && AllAtomChars(s[dot + 1..])
  }

  /** The language of the expression. */
  ghost predicate MatchesEmailRegex(s: string) {
    exists at, dot :: SplitsAt(s, at, dot)
  }

  /** States of a left-to-right scan: the local part (before '@'), then the domain,
      which is matched once a '.' has a character on each side. */
  datatype ScanState =
    | LocalEmpty   // nothing read yet
    | LocalPart    // a non-empty local part
    | DomainEmpty  // the '@' was just read
    | DomainPart   // a non-empty domain without a usable '.'
    | DomainDot    // as DomainPart, but the last character is a '.' that follows a domain character
    | Matched      // a '.' with characters on both sides: the expression matches
    | Dead         // no continuation can match

  /** One character of the scan. */
  function Next(q: ScanState, c: char): ScanState {
    if IsSpace(c) then Dead
    else if c == '@' then (if q == LocalPart then DomainEmpty else Dead)
    else match q
      case LocalEmpty => LocalPart
      case LocalPart => LocalPart
      case DomainEmpty => DomainPart
      case DomainPart => if c == '.' then DomainDot else DomainPart
      case DomainDot => Matched
      case Matched => Matched
      case Dead => Dead
  }

  /** The state after scanning all of `s`. */
  function Scan(s: string): ScanState
    decreases |s|
  {
    if s == [] then LocalEmpty else Next(Scan(s[..|s| - 1]), s[|s| - 1])
  }

  /** The index of the first occurrence of `c`. */
  function FirstIndexOf(s: string, c: char): (k: nat)
    requires c in s
    ensures k < |s| && s[k] == c && c !in s[..k]
    decreases |s|
  {
    if s[0] == c then 0
    else
      var k := FirstIndexOf(s[1..], c) + 1;
      assert s[..k] == [s[0]] + s[1..][..k - 1];
      k
  }

  /** A '.' with at least one character before it and one after it. */
  predicate HasInnerDot(d: string) {
    exists j :: 0 < j < |d| - 1 && d[j] == '.'
  }

  /** What the scan has learned about a domain `d` free of whitespace and '@'. */
  function DomainClass(d: string): ScanState {
    if d == [] then DomainEmpty
    else if HasInnerDot(d) then Matched
    else if |d| >= 2 && d[|d| - 1] == '.' then DomainDot
    else DomainPart
  }

  /** A direct, non-incremental description of the scanner's state after `p`. */
  function Classify(p: string): ScanState {
    if !NoSpace(p) then Dead
    else if '@' !in p then (if p == [] then LocalEmpty else LocalPart)
    else AtClass(p, FirstIndexOf(p, '@'))
  }

  /** The state after `p`, free of whitespace, whose first '@' is at `k`. */
  function AtClass(p: string, k: nat): ScanState
    requires k < |p|
  {
    if k == 0 || '@' in p[k + 1..] then Dead else DomainClass(p[k + 1..])
  }

  /** Appending one character to a domain moves its class as the scanner does. */
  lemma DomainClassNext(d: string, c: char)
    requires IsAtomChar(c)
    ensures DomainClass(d + [c]) == Next(DomainClass(d), c)
  {
    var e := d + [c];
    assert forall j :: 0 <= j < |d| ==> e[j] == d[j];
    if d == [] {
      assert !HasInnerDot(e);
    } else if HasInnerDot(d) {
      var j :| 0 < j < |d| - 1 && d[j] == '.';
      assert e[j] == '.';
    } else if |d| >= 2 && d[|d| - 1] == '.' {
      assert e[|d| - 1] == '.';
    } else {
      assert !HasInnerDot(e);
    }
  }

  /** The first '@' of a string stays the first '@' when a character is appended. */
  lemma FirstIndexOfAppend(p: string, c: char)
    requires '@' in p
    ensures FirstIndexOf(p + [c], '@') == FirstIndexOf(p, '@')
  {
    var e := p + [c];
    var k := FirstIndexOf(p, '@');
    var k' := FirstIndexOf(e, '@');
    assert forall i :: 0 <= i < |p| ==> e[i] == p[i];
    assert forall i :: 0 <= i < k ==> p[..k][i] == p[i];
    assert forall i :: 0 <= i < k' ==> e[..k'][i] == e[i];
  }

  /** Whitespace-freedom of a string extended by one character. */
  lemma NoSpaceAppend(p: string, c: char)
    ensures NoSpace(p + [c]) <==> NoSpace(p) && !IsSpace(c)
  {
    var e := p + [c];
    assert forall i :: 0 <= i < |p| ==> e[i] == p[i];
    assert e[|p|] == c;
  }

  /** After the first '@', one more character moves `AtClass` as the scanner does. */
  lemma AtClassNext(p: string, c: char, k: nat)
    requires k < |p| && !IsSpace(c)
    ensures AtClass(p + [c], k) == Next(AtClass(p, k), c)
  {
    var d := p[k + 1..];
    assert (p + [c])[k + 1..] == d + [c];
    assert forall j :: 0 <= j < |d| ==> (d + [c])[j] == d[j];
    if k == 0 {
    } else if '@' in d {
      assert '@' in d + [c];
    } else if c == '@' {
      assert (d + [c])[|d|] == '@';
    } else {
      assert '@' !in d + [c];
      DomainClassNext(d, c);
    }
  }

  /** `Classify` is preserved by one scanner step. */
  lemma ClassifyNext(p: string, c: char)
    ensures Classify(p + [c]) == Next(Classify(p), c)
  {
    var e := p + [c];
    NoSpaceAppend(p, c);
    if !NoSpace(p) || IsSpace(c) {
    } else if '@' !in p {
      if c == '@' {
        assert forall i :: 0 <= i < |p| ==> e[i] == p[i];
        var k := FirstIndexOf(e, '@');
        assert k == |p|;
        assert e[k + 1..] == [];
      } else {
        assert forall i :: 0 <= i < |p| ==> e[i] == p[i];
        assert '@' !in e;
      }
    } else {
      FirstIndexOfAppend(p, c);
      AtClassNext(p, c, FirstIndexOf(p, '@'));
    }
  }

  /** The scanner computes `Classify`. */
  lemma {:induction false} ScanIsClassify(s: string)
    ensures Scan(s) == Classify(s)
    decreases |s|
  {
    if s != [] {
      var p := s[..|s| - 1];
      ScanIsClassify(p);
      ClassifyNext(p, s[|s| - 1]);
      assert p + [s[|s| - 1]] == s;
    }
  }

  /** A slice whose characters are all accepted by `[^\s@]`. */
  lemma AtomSlice(s: string, lo: int, hi: int)
    requires 0 <= lo <= hi <= |s|
    requires forall i :: lo <= i < hi ==> IsAtomChar(s[i])
    ensures AllAtomChars(s[lo..hi])
  {
  }

  /** The characters of a slice accepted by `[^\s@]`, read back at their own indices. */
  lemma AtomSliceChars(s: string, lo: int, hi: int)
    requires 0 <= lo <= hi <= |s|
    requires AllAtomChars(s[lo..hi])
    ensures forall i :: lo <= i < hi ==> IsAtomChar(s[i])
  {
  }

  /** When `Classify` reports `Matched`, the string splits as the expression demands. */
  lemma ClassifyMatchedIsRegex(s: string)
    requires Classify(s) == Matched
    ensures MatchesEmailRegex(s)
  {
    var k := FirstIndexOf(s, '@');
    var d := s[k + 1..];
    var j :| 0 < j < |d| - 1 && d[j] == '.';
    var at, dot := k, k + 1 + j;
    assert s[dot] == '.';
    assert forall i :: 0 <= i < k ==> s[..k][i] == s[i];
    assert forall i :: k < i < |s| ==> d[i - k - 1] == s[i];
    AtomSlice(s, 0, at);
    AtomSlice(s, at + 1, dot);
    AtomSlice(s, dot + 1, |s|);
    assert s[..at] == s[0..at];
    assert s[dot + 1..] == s[dot + 1..|s|];
    assert SplitsAt(s, at, dot);
  }

  /** A string with no whitespace, a single '@' after a non-empty local part, and a domain
      with an inner '.' is one `Classify` reports as `Matched`. */
  lemma ClassifySingleAt(s: string, at: int)
    requires NoSpace(s)
    requires 0 < at < |s| && s[at] == '@'
    requires forall i :: 0 <= i < |s| && i != at ==> s[i] != '@'
    requires HasInnerDot(s[at + 1..])
    ensures Classify(s) == Matched
  {
    var k := FirstIndexOf(s, '@');
    assert k == at;
    var d := s[k + 1..];
    assert forall i :: 0 <= i < |d| ==> d[i] == s[at + 1 + i];
    assert '@' !in d;
  }

  /** The whole-string facts behind a split: no whitespace, and no '@' but the one at `at`. */
  lemma SplitFacts(s: string, at: int, dot: int)
    requires 0 < at && at + 1 < dot && dot + 1 < |s| && s[at] == '@' && s[dot] == '.'
    requires forall i :: 0 <= i < at ==> IsAtomChar(s[i])
    requires forall i :: at < i < dot ==> IsAtomChar(s[i])
    requires forall i :: dot < i < |s| ==> IsAtomChar(s[i])
    ensures NoSpace(s)
    ensures forall i :: 0 <= i < |s| && i != at ==> s[i] != '@'
  {
  }

  /** A string in the language of the expression is one `Classify` reports as `Matched`. */
  lemma RegexIsClassifyMatched(s: string)
    requires MatchesEmailRegex(s)
    ensures Classify(s) == Matched
  {
    var at, dot :| SplitsAt(s, at, dot);
    assert s[..at] == s[0..at];
    assert s[dot + 1..] == s[dot + 1..|s|];
    AtomSliceChars(s, 0, at);
    AtomSliceChars(s, at + 1, dot);
    AtomSliceChars(s, dot + 1, |s|);
    SplitFacts(s, at, dot);
    var d := s[at + 1..];
    assert d[dot - at - 1] == '.';
    ClassifySingleAt(s, at);
  }

  /** `Classify` reports `Matched` exactly on the language of the expression. */
  lemma ClassifyMatchesRegex(s: string)
    ensures Classify(s) == Matched <==> MatchesEmailRegex(s)
  {
    if Classify(s) == Matched {
      ClassifyMatchedIsRegex(s);
    }
    if MatchesEmailRegex(s) {
      RegexIsClassifyMatched(s);
    }
  }

  /** The e-mail test of the form: a scan of the string exactly as typed, untrimmed. */
  predicate EmailShapeOk(s: string) {
    Scan(s) == Matched
  }

  /** The scanner accepts exactly the strings the expression matches. */
  lemma EmailShapeOkIffRegex(s: string)
    ensures EmailShapeOk(s) <==> MatchesEmailRegex(s)
  {
    ScanIsClassify(s);
    ClassifyMatchesRegex(s);
  }

  /** The reading of the expression in plain terms: no whitespace, exactly one '@', a
      non-empty part before it, and after it a '.' with a character on each side. */
  predicate WellShapedEmail(s: string) {
    && NoSpace(s)
    && exists at ::
      && 0 < at < |s| && s[at] == '@'
      && (forall i :: 0 <= i < |s| && i != at ==> s[i] != '@')
      && HasInnerDot(s[at + 1..])
  }

  /** A string `Classify` reports as `Matched` is well shaped. */
  lemma ClassifyMatchedIsWellShaped(s: string)
    requires Classify(s) == Matched
    ensures WellShapedEmail(s)
  {
    var k := FirstIndexOf(s, '@');
    var d := s[k + 1..];
    assert forall i :: k < i < |s| ==> d[i - k - 1] == s[i];
    assert forall i :: 0 <= i < k ==> s[..k][i] == s[i];
    assert forall i :: 0 <= i < |s| && i != k ==> s[i] != '@';
  }

  /** The form's e-mail test accepts exactly the well-shaped strings. */
  lemma EmailShapeCharacterization(s: string)
    ensures EmailShapeOk(s) <==> WellShapedEmail(s)
  {
    ScanIsClassify(s);
    if WellShapedEmail(s) {
      var at :|
        && 0 < at < |s| && s[at] == '@'
        && (forall i :: 0 <= i < |s| && i != at ==> s[i] != '@')
        && HasInnerDot(s[at + 1..]);
      ClassifySingleAt(s, at);
    }
    if Scan(s) == Matched {
      ClassifyMatchedIsWellShaped(s);
    }
  }

  /** A string the expression matches has no whitespace at all, in particular none at its ends. */
  lemma RegexHasNoSpace(s: string)
    ensures MatchesEmailRegex(s) ==> NoSpace(s)
  {
    if MatchesEmailRegex(s) {
      RegexIsClassifyMatched(s);
    }
  }
}

=== FILE: lazy_image.dfy ===
/** The lazily loaded image: the URL it shows, whether it is still blurred, and how
    intersection, preload completion, a change of URL and unmounting move that state. */
module LazyImage {
  import opened Wrappers

  /** The grey 400x300 SVG shown while no URL has been taken over. */
  const Placeholder: string :=
    "data:image/svg+xml,%3Csvg xmlns=\"http://www.w3.org/2000/svg\" viewBox=\"0 0 400 300\"%3E%3Crect fill=\"%23E5E7EB\" width=\"400\" height=\"300\"/%3E%3C/svg%3E"

  const BlurredClass: string := "blur-sm"
  const SharpClass: string := "blur-0"

  /** `src` is the current prop; `imageSrc` and `isLoaded` the two pieces of component state;
      `observing` whether the current observer would still deliver an entry for the element;
      `mounted` whether the component is on the page. */
  datatype ImageState = ImageState(src: string, imageSrc: Option<string>, isLoaded: bool, observing: bool, mounted: bool)

  /** A callback with one intersection entry, the preload's `onload`, a new `src` prop,
      and removal from the page. */
  datatype ImageEvent = Intersect(isIntersecting: bool) | PreloadDone | SrcChange(newSrc: string) | Unmount

  /** The state right after mounting: no URL taken over, not loaded, a fresh observer, and the
      preload already started (so a `PreloadDone` may follow at any time). */
  function Mounted(src: string): ImageState {
    ImageState(src, None, false, true, true)
  }

  /** The state invariant: an unmounted image has no observer, and a mounted one that has not
      taken over a URL is still observed. */
  ghost predicate Wf(st: ImageState) {
    && (!st.mounted ==> !st.observing)
    && (st.mounted && st.imageSrc.None? ==> st.observing)
  }

  /** One event. The URL is taken over only from an intersecting entry while observed, after
      which the element is no longer observed; `onload` sets the loaded flag whether or not
      the component is still mounted; a new URL tears down the observer and starts a new
      one and a new preload without resetting either piece of state; unmounting only
      disconnects the observer. */
  function Step(st: ImageState, ev: ImageEvent): (r: ImageState)
    ensures r.isLoaded == (st.isLoaded || ev == PreloadDone)
    ensures r.imageSrc != st.imageSrc ==>
      ev == Intersect(true) && st.observing && r.imageSrc == Some(st.src) && !r.observing
    ensures st.observing && ev == Intersect(true) ==> r == st.(imageSrc := Some(st.src), observing := false)
    ensures ev.Intersect? && !st.observing ==> r == st
    ensures ev == Intersect(false) ==> r == st
    ensures ev == PreloadDone ==> r == st.(isLoaded := true)
    ensures Wf(st) && !st.mounted ==> r.imageSrc == st.imageSrc && !r.mounted && !r.observing
    ensures ev.SrcChange? && st.mounted && ev.newSrc != st.src ==>
      r.src == ev.newSrc && r.observing && r.mounted && r.imageSrc == st.imageSrc
    ensures ev.SrcChange? && (!st.mounted || ev.newSrc == st.src) ==> r == st
    ensures ev == Unmount ==> r == st.(observing := false, mounted := false)
    ensures Wf(st) ==> Wf(r)
  {
    match ev
    case Intersect(isIntersecting) =>
      if st.observing && isIntersecting then st.(imageSrc := Some(st.src), observing := false) else st
    case PreloadDone => st.(isLoaded := true)
    case SrcChange(newSrc) =>
      if !st.mounted || newSrc == st.src then st else st.(src := newSrc, observing := true)
    case Unmount => st.(observing := false, mounted := false)
  }

  /** The state after a sequence of events. */
  function Run(st: ImageState, evs: seq<ImageEvent>): ImageState
    decreases |evs|
  {
    if evs == [] then st else Run(Step(st, evs[0]), evs[1..])
  }

  /** The `src` attribute rendered: the taken-over URL when it is a non-empty string, otherwise
      the placeholder. It is never empty. */
  function RenderedSrc(st: ImageState): (r: string)
    ensures r != []
    ensures r == Placeholder || st.imageSrc == Some(r)
    ensures st.imageSrc.None? ==> r == Placeholder
    ensures st.imageSrc.Some? && st.imageSrc.value != [] ==> r == st.imageSrc.value
  {
    if st.imageSrc.Some? && st.imageSrc.value != [] then st.imageSrc.value else Placeholder
  }

  /** The blur class put on the image. */
  function BlurClass(st: ImageState): (c: string)
    ensures c == BlurredClass <==> !st.isLoaded
    ensures st.isLoaded ==> c == SharpClass
  {
    if !st.isLoaded then BlurredClass else SharpClass
  }

  /** The full `className`: the caller's classes, then the blur class as a space-separated
      class of its own, then the transition classes. */
  function ClassName(className: string, st: ImageState): (r: string)
    ensures |r| > |className| + 1 + |BlurClass(st)|
    ensures r[..|className|] == className && r[|className|] == ' '
    ensures r[|className| + 1..|className| + 1 + |BlurClass(st)|] == BlurClass(st)
    ensures r[|className| + 1 + |BlurClass(st)|] == ' '
  {
    var b := BlurClass(st);
    var r := className + " " + b + " transition-all duration-300";
    assert r[|className| + 1..|className| + 1 + |b|] == b;
    r
  }

  /** Every reachable state satisfies the invariant. */
  lemma {:induction false} RunKeepsWf(st: ImageState, evs: seq<ImageEvent>)
    requires Wf(st)
    ensures Wf(Run(st, evs))
    decreases |evs|
  {
    if evs != [] {
      RunKeepsWf(Step(st, evs[0]), evs[1..]);
    }
  }

  /** The loaded flag is set exactly by a preload completion and never cleared. */
  lemma {:induction false} LoadedIffPreloadDone(st: ImageState, evs: seq<ImageEvent>)
    ensures Run(st, evs).isLoaded <==> st.isLoaded || PreloadDone in evs
    decreases |evs|
  {
    if evs != [] {
      LoadedIffPreloadDone(Step(st, evs[0]), evs[1..]);
      assert evs == [evs[0]] + evs[1..];
    }
  }

  /** From mounting on, the image is blurred until the first preload completion, whatever
      else happens: visibility plays no part, and a completion after unmounting still counts. */
  lemma BlurredUntilPreloaded(src: string, evs: seq<ImageEvent>)
    ensures BlurClass(Run(Mounted(src), evs)) == BlurredClass <==> PreloadDone !in evs
  {
    LoadedIffPreloadDone(Mounted(src), evs);
  }

  /** An intersecting entry that arrives before any unmount. */
  ghost predicate HitBeforeUnmount(evs: seq<ImageEvent>) {
    exists i :: 0 <= i < |evs| && evs[i] == Intersect(true) && Unmount !in evs[..i]
  }

  lemma HitBeforeUnmountCons(e: ImageEvent, evs: seq<ImageEvent>)
    ensures HitBeforeUnmount([e] + evs) <==> e == Intersect(true) || (e != Unmount && HitBeforeUnmount(evs))
  {
    var es := [e] + evs;
    assert forall i :: 0 <= i < |evs| ==> es[i + 1] == evs[i] && es[..i + 1] == [e] + evs[..i];
    if HitBeforeUnmount(es) && e != Intersect(true) {
      var i :| 0 <= i < |es| && es[i] == Intersect(true) && Unmount !in es[..i];
      assert i > 0;
      assert es[..i][0] == e;
      assert evs[i - 1] == Intersect(true);
    }
    if e != Unmount && HitBeforeUnmount(evs) {
      var i :| 0 <= i < |evs| && evs[i] == Intersect(true) && Unmount !in evs[..i];
      assert es[i + 1] == Intersect(true);
    }
    if e == Intersect(true) {
      assert es[..0] == [];
    }
  }

  /** A URL is taken over exactly when an intersecting entry arrives while mounted: from a
      well-formed state the image has a URL at the end iff it had one or such an entry came. */
  lemma {:induction false} TakesUrlIffHit(st: ImageState, evs: seq<ImageEvent>)
    requires Wf(st)
    ensures Run(st, evs).imageSrc.Some? <==> st.imageSrc.Some? || (st.mounted && HitBeforeUnmount(evs))
    decreases |evs|
  {
    if evs == [] {
    } else {
      var e := evs[0];
      var st1 := Step(st, e);
      TakesUrlIffHit(st1, evs[1..]);
      HitBeforeUnmountCons(e, evs[1..]);
      assert [e] + evs[1..] == evs;
    }
  }

  /** No event changes the `src` prop. */
  predicate FixedSrc(evs: seq<ImageEvent>) {
    forall i :: 0 <= i < |evs| ==> !evs[i].SrcChange?
  }

  /** While the prop stays fixed, the only URL ever taken over is the prop itself. */
  lemma {:induction false} UrlIsProp(st: ImageState, evs: seq<ImageEvent>)
    requires st.imageSrc.None? || st.imageSrc == Some(st.src)
    requires FixedSrc(evs)
    ensures Run(st, evs).src == st.src
    ensures Run(st, evs).imageSrc.None? || Run(st, evs).imageSrc == Some(st.src)
    decreases |evs|
  {
    if evs != [] {
      assert !evs[0].SrcChange?;
      assert FixedSrc(evs[1..]) by {
        assert forall i :: 0 <= i < |evs| - 1 ==> evs[1..][i] == evs[i + 1];
      }
      UrlIsProp(Step(st, evs[0]), evs[1..]);
    }
  }

  /** From mounting on, something other than the placeholder is shown only after an
      intersecting entry arrived before unmounting. With a fixed prop that is neither empty
      nor the placeholder itself, the prop is shown iff such an entry arrived. */
  lemma ShowsUrlIffHit(src: string, evs: seq<ImageEvent>)
    ensures RenderedSrc(Run(Mounted(src), evs)) != Placeholder ==> HitBeforeUnmount(evs)
    ensures FixedSrc(evs) && src != [] && src != Placeholder ==>
      (RenderedSrc(Run(Mounted(src), evs)) == src <==> HitBeforeUnmount(evs))
  {
    TakesUrlIffHit(Mounted(src), evs);
    if FixedSrc(evs) {
      UrlIsProp(Mounted(src), evs);
    }
  }

  /** As the component is written the element is never handed to the observer, so no entry
      ever arrives; then only the placeholder is ever rendered. */
  lemma {:induction false} NoEntryMeansPlaceholder(src: string, evs: seq<ImageEvent>)
    requires forall i :: 0 <= i < |evs| ==> !evs[i].Intersect?
    ensures RenderedSrc(Run(Mounted(src), evs)) == Placeholder
  {
    TakesUrlIffHit(Mounted(src), evs);
    assert !HitBeforeUnmount(evs);
  }

  /** Loading does not wait for visibility: the preload may finish first, leaving a sharp
      placeholder on screen. */
  lemma LoadedBeforeVisible(src: string)
    ensures Run(Mounted(src), [PreloadDone]).isLoaded
    ensures RenderedSrc(Run(Mounted(src), [PreloadDone])) == Placeholder
    ensures BlurClass(Run(Mounted(src), [PreloadDone])) == SharpClass
  {
  }

  /** Events that neither change the prop, unmount, nor deliver an intersecting entry. */
  predicate Quiet(ev: ImageEvent) {
    ev == PreloadDone || ev == Intersect(false)
  }

  /** While observed, quiet events keep the observation alive, and the next intersecting
      entry takes over the prop. */
  lemma {:induction false} QuietThenHit(st: ImageState, mid: seq<ImageEvent>)
    requires st.observing
    requires forall i :: 0 <= i < |mid| ==> Quiet(mid[i])
    ensures Run(st, mid + [Intersect(true)]).imageSrc == Some(st.src)
    ensures !Run(st, mid + [Intersect(true)]).observing
    decreases |mid|
  {
    var evs := mid + [Intersect(true)];
    if mid != [] {
      assert evs[0] == mid[0];
      assert evs[1..] == mid[1..] + [Intersect(true)];
      assert forall i :: 0 <= i < |mid| - 1 ==> mid[1..][i] == mid[i + 1];
      QuietThenHit(Step(st, mid[0]), mid[1..]);
    } else {
      assert evs[1..] == [];
    }
  }

  /** A new prop re-arms the observer: even after an earlier URL was taken over, the next
      intersecting entry takes over the new prop, whatever preload completions and
      non-intersecting entries come in between. */
  lemma SrcChangeRearms(st: ImageState, newSrc: string, mid: seq<ImageEvent>)
    requires st.mounted && newSrc != st.src
    requires forall i :: 0 <= i < |mid| ==> Quiet(mid[i])
    ensures Run(Step(st, SrcChange(newSrc)), mid + [Intersect(true)]).imageSrc == Some(newSrc)
  {
    QuietThenHit(Step(st, SrcChange(newSrc)), mid);
  }

  /** Taking over a URL does not stop the component from following its prop: after a hit,
      a new prop and a second hit show the new prop. */
  lemma HitThenNewProp(a: string, b: string)
    requires a != b
    ensures Run(Mounted(a), [Intersect(true)]).imageSrc == Some(a)
    ensures Run(Mounted(a), [Intersect(true), SrcChange(b), Intersect(true)]).imageSrc == Some(b)
  {
    var hit := Step(Mounted(a), Intersect(true));
    assert [Intersect(true), SrcChange(b), Intersect(true)][1..] == [SrcChange(b), Intersect(true)];
    assert [SrcChange(b), Intersect(true)][1..] == [Intersect(true)];
    SrcChangeRearms(hit, b, []);
    assert [] + [Intersect(true)] == [Intersect(true)];
  }

  /** Once the element is unobserved, further entries of either kind change nothing. */
  lemma {:induction false} UnobservedIgnoresEntries(st: ImageState, evs: seq<ImageEvent>)
    requires !st.observing
    requires forall i :: 0 <= i < |evs| ==> evs[i].Intersect?
    ensures Run(st, evs) == st
    decreases |evs|
  {
    if evs != [] {
      assert forall i :: 0 <= i < |evs| - 1 ==> evs[1..][i] == evs[i + 1];
      UnobservedIgnoresEntries(Step(st, evs[0]), evs[1..]);
    }
  }

  /** After unmounting the URL never changes and the component stays unmounted, but a preload
      completion still sets the loaded flag: the `onload` handler is not cancelled. */
  lemma {:induction false} UnmountedKeepsUrl(st: ImageState, evs: seq<ImageEvent>)
    requires Wf(st) && !st.mounted
    ensures Run(st, evs).imageSrc == st.imageSrc && !Run(st, evs).mounted
    ensures PreloadDone in evs ==> Run(st, evs).isLoaded
    decreases |evs|
  {
    if evs != [] {
      UnmountedKeepsUrl(Step(st, evs[0]), evs[1..]);
      LoadedIffPreloadDone(st, evs);
    }
  }
}

=== FILE: text.dfy ===
/** Character classes and string measures that the contact form relies on:
    JavaScript's `\s`, `String.prototype.trim` and `String.prototype.length`. */
module Text {

  /** The code points ECMAScript counts as WhiteSpace or LineTerminator. This one set is
      both what the regular-expression class `\s` matches and what `trim()` strips. */
  predicate IsSpace(c: char) {
    || c == '\t' || c == '\n' || c == '\U{000B}' || c == '\U{000C}' || c == '\r' || c == ' '
    || c == '\U{00A0}' || c == '\U{1680}' || ('\U{2000}' <= c <= '\U{200A}')
    || c == '\U{2028}' || c == '\U{2029}' || c == '\U{202F}' || c == '\U{205F}'
    || c == '\U{3000}' || c == '\U{FEFF}'
  }

  /** Empty or made of whitespace only. */
  predicate IsBlank(s: string) {
    forall i :: 0 <= i < |s| ==> IsSpace(s[i])
  }

  /** `trimStart()`: the suffix left after dropping the leading whitespace. */
  function TrimStart(s: string): (r: string)
    ensures |r| <= |s| && r == s[|s| - |r|..]
    ensures forall i :: 0 <= i < |s| - |r| ==> IsSpace(s[i])
    ensures r != [] ==> !IsSpace(r[0])
    decreases |s|
  {
    if |s| > 0 && IsSpace(s[0]) then TrimStart(s[1..]) else s
  }

  /** `trimEnd()`: the prefix left after dropping the trailing whitespace. */
  function TrimEnd(s: string): (r: string)
    ensures |r| <= |s| && r == s[..|r|]
    ensures forall i :: |r| <= i < |s| ==> IsSpace(s[i])
    ensures r != [] ==> !IsSpace(r[|r| - 1])
    decreases |s|
  {
    if |s| > 0 && IsSpace(s[|s| - 1]) then TrimEnd(s[..|s| - 1]) else s
  }

  /** `trim()`: whitespace removed from both ends. The string is empty (falsy in
      JavaScript) exactly when the input is blank. */
  function Trim(s: string): (r: string)
    ensures |r| <= |s|
    ensures r == [] <==> IsBlank(s)
    ensures r != [] ==> !IsSpace(r[0]) && !IsSpace(r[|r| - 1])
  {
    var t := TrimStart(s);
    var r := TrimEnd(t);
    assert r != [] ==> t[0] == r[0];
    r
  }

  /** The UTF-16 code units that encode one character: two for a character outside the
      Basic Multilingual Plane (a surrogate pair), one otherwise. */
  function CodeUnits(c: char): nat {
    if (c as int) < 0x1_0000 then 1 else 2
  }

  /** `length` of a JavaScript string: UTF-16 code units, so a character outside the
      Basic Multilingual Plane counts twice. */
  function Utf16Length(s: string): (n: nat)
    ensures |s| <= n <= 2 * |s|
    ensures n == |s| <==> forall i :: 0 <= i < |s| ==> (s[i] as int) < 0x1_0000
    ensures |s| == 1 ==> n == CodeUnits(s[0])
    decreases |s|
  {
    if s == [] then 0
    else
      var init := s[..|s| - 1];
      assert forall i :: 0 <= i < |init| ==> init[i] == s[i];
      Utf16Length(init) + CodeUnits(s[|s| - 1])
  }

  /** The length of a concatenation is the sum of the lengths; with the one-character case
      this fixes the length of every string. */
  lemma {:induction false} Utf16LengthConcat(a: string, b: string)
    ensures Utf16Length(a + b) == Utf16Length(a) + Utf16Length(b)
    decreases |b|
  {
    if b == [] {
      assert a + b == a;
    } else {
      var init := b[..|b| - 1];
      Utf16LengthConcat(a, init);
      assert (a + b)[..|a + b| - 1] == a + init;
      assert (a + b)[|a + b| - 1] == b[|b| - 1];
    }
  }
}

=== FILE: wrappers.dfy ===
/** The optional value used for the form's per-field errors and the image's source. */
module Wrappers {

  /** `None` stands for JavaScript's `null`/`undefined`, `Some(v)` for a present value. */
  datatype Option<+T> = None | Some(value: T)
}
